=== FILE: README.md ===
# eventbus: the handler registry and the in-memory stores, in Dafny

This project models the core of a generic publish/subscribe event bus
written in Go. An `Event` keeps a registry from string id to handler and is
bound to one Store. `Publish` hands a payload to the store. The store calls
the event's dispatch callback back, and that callback launches one
`Handle(payload)` per handler registered at that moment. Two in-memory
stores are modelled as well:

- the channel store, which keeps one buffered channel per subscription;
- the callback store, which keeps one callback per subscription.

Both stores key their subscriptions by a random UUID and remove a
subscription when its context is cancelled.

Every operation is a pure function on an immutable value. Locks and
goroutines are not modelled. Each `go f(payload)` is recorded as a
`Fanout.Delivery(key, target, payload)`. The `key` is the map entry that
launched it, so the multiplicity is exact even when two ids hold the same
handler value. A broadcast's result is a multiset of deliveries. Go's nil
map is `EventBus.Registry.Nil`, which reads as empty. The UUID generator is
replaced by a parameter: the sequence of draws.

Modules:

- `Outcomes`: option, nil-or-error result, the bus's error values.
- `Fanout`: broadcast over a map, shared by the event and both stores.
- `Keys`: the UUID key space and the "draw until unused" loop.
- `EventBus`: event.go.
- `ChannelStore`: store/memory/memory.go.
- `CallbackStore`: memory/memory.go (`newStore`, `Subscribe`, `Publish`).
- `MemoryEvents`: memory/memory.go `New`, composing the callback store with the event.

Facts about the code that shape the model:

- `NewEvent` never fails. It starts the subscription in a goroutine and returns a nil error (event.go:36-38).
- store.go:11 declares a stream-returning `Subscribe`, but event.go:36 calls the callback form, which memory/memory.go implements. The model uses the callback form.
- event.go:48 ranges over `e.handlers` without taking the lock. That race is not modelled.

## Model

| member | source | states |
|---|---|---|
| Fanout.Broadcast | event.go:48-50 | the launched deliveries are exactly one per map entry, carrying that entry's target and the payload, and nothing else; their number is the map's size |
| Fanout.BroadcastLoop | memory/memory.go:31-33 | the `for range` loop over the map launches exactly `Broadcast`'s deliveries, whatever order it visits the keys in |
| Keys.FirstUnused | store/memory/memory.go:45-54 | the retry loop stops at the first draw that is not a key in use, having skipped only keys in use; it keeps drawing exactly when every draw so far is in use |
| Keys.FreshUuidExists | memory/memory.go:44-53 | while fewer than 2^128 keys are in use, some `[16]byte` key is unused, so the retry loop can end |
| Keys.FirstUnusedFinds | memory/memory.go:44-53 | a draw stream containing an unused key ends the loop, no later than that key |
| EventBus.NewEvent | event.go:30-38 | a new event is bound to the given store, has the nil (empty) registry, and the error is always nil |
| EventBus.RegisterHandler | event.go:54-69 | succeeds iff the id is absent, and then adds exactly `id ↦ h`; a duplicate returns `DuplicateId` and leaves the event unchanged; the nil map becomes a live map; other ids and the store are untouched |
| EventBus.UnregisterHandler | event.go:72-77 | the id is absent afterwards, every other entry is unchanged, and deleting an absent id changes nothing |
| EventBus.Dispatch | event.go:47-51 | dispatching a payload invokes each currently registered handler exactly once with it, and nothing else |
| EventBus.Publish | event.go:79-83 | the event is unchanged and the result is its bound store's `Publish` result for the same payload, verbatim |
| EventBus.NewEventDispatchesNothing | event.go:30-51 | a new event invokes no handler on dispatch |
| EventBus.RegisterThenUnregister | event.go:54-77 | registering a fresh id and then unregistering it restores the original entries |
| EventBus.UnregisterIdempotent | event.go:72-77 | unregistering twice is the same as unregistering once |
| EventBus.UnregisterThenRegister | event.go:58-76 | after unregistering an id, registering it again succeeds and stores the new handler |
| EventBus.DuplicateKeepsOriginal | event.go:62-64 | a rejected duplicate keeps the original handler reachable (dispatched once) and never dispatches the rejected one under that id |
| EventBus.UnregisteredGetsNothing | event.go:47-77 | after unregistering an id no dispatch reaches that id |
| EventBus.PublishPassesStoreFailure | event.go:79-83 | a store whose `Publish` fails with some reason makes the bus's `Publish` return that same failure, with the event unchanged |
| EventBus.PublishKeepsDispatch | event.go:79-83 | publishing does not change what any later dispatch invokes |
| EventBus.RunIsPerId | event.go:54-77 | after any sequence of registrations and unregistrations, every id holds what its own history says (first registration wins until unregistered), and the store is unchanged |
| ChannelStore.New | store/memory/memory.go:10-15 | a new store has no subscriptions, records the buffer as given, and satisfies the store invariant |
| ChannelStore.Subscribe | store/memory/memory.go:37-68 | a negative buffer panics in `make`; otherwise the channel goes under the first unused drawn key, the map grows by exactly that entry, earlier subscriptions are kept, the channel has the configured capacity, and the error is nil |
| ChannelStore.Cancel | store/memory/memory.go:57-65 | cleanup deletes exactly that subscription's key and marks its channel closed; nothing else changes |
| ChannelStore.Publish | store/memory/memory.go:23-35 | one send per live subscription and none elsewhere; the map is not changed and the error is nil |
| ChannelStore.SubscribePreservesValid | store/memory/memory.go:41-54 | a new subscription's channel is fresh (never closed, not held by another key) and the invariant is kept |
| ChannelStore.CancelPreservesValid | store/memory/memory.go:57-65 | cleaning up a live subscription keeps the invariant: every remaining channel is still open |
| ChannelStore.PublishSafeAndOnce | store/memory/memory.go:27-32 | in a valid store no send is launched to a channel already closed when `Publish` runs, and no channel gets two launched sends |
| ChannelStore.CancelledGetsNothing | store/memory/memory.go:23-65 | a live subscription receives each publish once, and none after its cleanup |
| ChannelStore.SubscribeThenCancel | store/memory/memory.go:45-65 | subscribing and then cleaning up restores the live subscriptions |
| ChannelStore.RunSend | store/memory/memory.go:29-31 | running a launched send panics exactly when its channel is closed; otherwise that one send leaves the pending sends |
| ChannelStore.PublishThenCancelPanics | store/memory/memory.go:29-31 | publishing to a live subscription and then running its cleanup leaves a launched send aimed at a closed channel, which panics when it runs |
| ChannelStore.Detach | store/memory/memory.go:60-64 | corrected cleanup, first step: the key is deleted and no channel is closed |
| ChannelStore.CloseDrained | store/memory/memory.go:63 | corrected cleanup, second step: the channel is closed exactly when no launched send to it is pending |
| ChannelStore.CorrectedCleanupNeverPanics | store/memory/memory.go:57-65 | with the corrected cleanup no publish issued after the detach launches a send to the channel, and every pending send runs without panicking |
| ChannelStore.CorrectedCleanupCloses | store/memory/memory.go:57-65 | with no sends pending, the corrected cleanup has the same effect as the original one |
| CallbackStore.NewStore | memory/memory.go:11-15 | a new store has no callbacks |
| CallbackStore.Subscribe | memory/memory.go:38-66 | `f` goes under the first unused drawn key, the map grows by exactly `key ↦ f`, earlier callbacks are kept, and the error is nil |
| CallbackStore.Cancel | memory/memory.go:56-63 | cleanup deletes exactly that subscription's key and no other |
| CallbackStore.Publish | memory/memory.go:27-36 | every registered callback is invoked exactly once with the payload, nothing else; the map is not changed and the error is nil |
| CallbackStore.NewStorePublishesNothing | memory/memory.go:11-36 | publishing on a new store invokes nothing |
| CallbackStore.SubscribeThenCancel | memory/memory.go:44-63 | subscribing and then running that subscription's cleanup gives back the original store |
| CallbackStore.CancelIdempotent | memory/memory.go:56-63 | running a cleanup twice is the same as running it once |
| CallbackStore.CancelledGetsNothing | memory/memory.go:27-63 | a cancelled callback receives no more publishes, and the others still receive each publish once |
| MemoryEvents.New | memory/memory.go:17-20 | a new bus has no handlers and exactly one subscription, the event's dispatch callback, and a nil error |
| MemoryEvents.Publish | event.go:79-83 | publishing on the bus leaves it unchanged, launches only the store's callback deliveries (no handler directly), and returns nil |
| MemoryEvents.Deliver | event.go:47-51 | a launched callback invokes each handler registered when it runs exactly once with its payload |
| MemoryEvents.Cancel | memory/memory.go:56-63 | cancelling the bus's context drops the subscription and leaves the registry as it is |
| MemoryEvents.RunThenPublishReachesHandlers | event.go:54-83 | on a bus from `New`, after any registrations and unregistrations, a publish launches exactly the one subscribed callback, and running it dispatches to the handlers then registered |
| MemoryEvents.PublishReachesEveryHandler | event.go:47-51 | while subscribed, a publish launches exactly one callback, and running it invokes every registered handler once |
| MemoryEvents.CancelledBusDeliversNothing | memory/memory.go:56-63 | a publish issued after the cleanup launches nothing; a callback launched before it can still run and reach the handlers (`LaunchedBeforeCancelStillRuns`) |
| MemoryEvents.LaunchedBeforeCancelStillRuns | memory/memory.go:31-33 | a callback launched before the cleanup and run after it still dispatches to every registered handler, although the store is then empty |
| MemoryEvents.Scenario | event.go:54-83 | an example run: register "h1"; publishing "x" launches the one callback and delivering it reaches "h1"; a second "h1" fails and keeps the first; after unregistering, delivering "y" reaches no handler |

## Left out

- redis/redis.go and store/redis/redis.go: a network client, gob encoding and logging. No logic of the bus itself lives there. A store's failing `Publish` is represented only as the `Outcomes.StoreFailure` value, which `EventBus.Publish` passes through (`EventBus.PublishPassesStoreFailure`).
- store.go and handler.go: interface declarations and the `HandlerFunc` adapter. Handlers and stores are opaque type parameters.
- Goroutines, `sync.RWMutex`, channel buffering and blocking, context timing: the model is sequential. Each launched goroutine is a recorded delivery. Running a launched channel send is modelled only as far as whether it panics, not what it puts in the channel's buffer.
- UUID randomness: the draws are a parameter. `uuid.NewV4` fixes 6 of the 128 bits and its ignored error yields the zero UUID. Neither is modelled: any `[16]byte` value may be drawn.
- The retry loop that never finds an unused key does not terminate in Go. The model returns `StillDrawing` for a finite prefix of draws with no unused key.
- MemoryEvents.New: treats the goroutine that subscribes `e.subscribe` as having run. In Go a publish issued before it runs finds no subscription.
- MemoryEvents.Deliver: runs the callback on the registry as it is when the callback runs. Go gives no bound on how far this lags behind the publish.
- Closing a channel twice would panic in Go. `ChannelStore.Cancel` models a close without that panic. Each subscription's cleanup runs once; `ChannelStore.Cancel` itself has no liveness requirement.
- ChannelStore.Subscribe: `make` also panics when the buffer times the payload's element size exceeds the runtime's allocation limit. That upper limit is not modelled: any non-negative buffer succeeds.

## Findings

| source | as written | input that shows it | evidently intended | confidence | as-written member | corrected member |
|---|---|---|---|---|---|---|
| store/memory/memory.go:29-31,63 | `Publish` launches `go func() { theChan <- payload }()` and releases the lock. The cleanup then closes the channel without waiting for those launched sends. | A live subscription and a `Publish(p)`, then its context is cancelled and the cleanup runs before the launched send executes. The send on the closed channel panics. | The cleanup closes a channel only once no launched send to it is pending. | medium (not executed) | ChannelStore.PublishThenCancelPanics | ChannelStore.CorrectedCleanupNeverPanics |

=== FILE: callback_store.dfy ===
/** The callback-based in-memory store of memory/memory.go: one callback per
    live subscription, keyed by a random UUID. `Publish` launches
    `go c(payload)` for every callback; each launch is one `Delivery`. */
module CallbackStore {

  import opened Outcomes
  import opened Keys
  import opened Fanout

  datatype Store<F> = Store(callbacks: map<Uuid, F>)

  /** Outcome of `Subscribe`: the callback stored under `key` with a nil
      error, or no unused key among the draws yet. */
  datatype Subscribed<F> = Subscribed(store: Store<F>, key: Uuid, err: Outcome<Error>) | StillDrawing

  /** `newStore`: no callbacks. */
  function NewStore<F>(): (s: Store<F>)
    ensures |s.callbacks| == 0
  {
    Store(map[])
  }

  /** `Subscribe(f)`: store `f` under the first drawn key not already in use.
      The key is new, the map grows by exactly `key ↦ f`, every earlier
      callback is kept as it was, and the returned error is nil. */
  function Subscribe<F>(s: Store<F>, f: F, draws: seq<Uuid>): (r: Subscribed<F>)
    ensures r.StillDrawing? <==> forall j :: 0 <= j < |draws| ==> draws[j] in s.callbacks
    ensures r.Subscribed? ==> r.key in draws && r.key !in s.callbacks
    ensures r.Subscribed? ==> FirstUnused(s.callbacks.Keys, draws).Some? && r.key == draws[FirstUnused(s.callbacks.Keys, draws).value]
    ensures r.Subscribed? ==> r.store.callbacks == s.callbacks[r.key := f]
    ensures r.Subscribed? ==> |r.store.callbacks| == |s.callbacks| + 1
    ensures r.Subscribed? ==> r.err == Pass
  {
    match FirstUnused(s.callbacks.Keys, draws)
    case None => StillDrawing
    case Some(i) => Subscribed(Store(s.callbacks[draws[i] := f]), draws[i], Pass)
  }

  /** The cleanup goroutine, once the subscription's context is done: delete
      exactly that subscription's key. */
  function Cancel<F>(s: Store<F>, key: Uuid): (r: Store<F>)
    ensures r.callbacks.Keys == s.callbacks.Keys - {key}
    ensures forall k :: k in r.callbacks ==> r.callbacks[k] == s.callbacks[k]
  {
    Store(s.callbacks - {key})
  }

  /** `Publish`: every registered callback invoked once with `p`, nothing
      else invoked; the map is not an output, so it is unchanged, and the
      returned error is always nil. */
  function Publish<F(==), P(==)>(s: Store<F>, p: P): (r: Published<Uuid, F, P>)
    ensures forall d :: d in r.deliveries ==> d.key in s.callbacks && d.target == s.callbacks[d.key] && d.payload == p
    ensures forall k :: k in s.callbacks ==> r.deliveries[Delivery(k, s.callbacks[k], p)] == 1
    ensures |r.deliveries| == |s.callbacks|
    ensures r.err == Pass
  {
    Published(Broadcast(s.callbacks, p), Pass)
  }

  // ---------------------------------------------------------------------
  // Laws relating the operations

  /** A new store invokes nothing on publish. */
  lemma NewStorePublishesNothing<F, P>(p: P)
    ensures Publish(NewStore<F>(), p).deliveries == multiset{}
  {
  }

  /** Subscribing and then running that subscription's cleanup gives back
      the original store. */
  lemma SubscribeThenCancel<F>(s: Store<F>, f: F, draws: seq<Uuid>)
    requires Subscribe(s, f, draws).Subscribed?
    ensures Cancel(Subscribe(s, f, draws).store, Subscribe(s, f, draws).key) == s
  {
  }

  /** Cleanup is idempotent. */
  lemma CancelIdempotent<F>(s: Store<F>, key: Uuid)
    ensures Cancel(Cancel(s, key), key) == Cancel(s, key)
  {
  }

  /** A subscription receives every publish while it is live and none after
      its cleanup; the other subscriptions receive exactly what they did. */
  lemma CancelledGetsNothing<F, P>(s: Store<F>, key: Uuid, p: P)
    requires key in s.callbacks
    ensures Publish(s, p).deliveries[Delivery(key, s.callbacks[key], p)] == 1
    ensures forall d :: d in Publish(Cancel(s, key), p).deliveries ==> d.key != key
    ensures forall k :: k in s.callbacks && k != key ==> Publish(Cancel(s, key), p).deliveries[Delivery(k, s.callbacks[k], p)] == 1
  {
  }

}

=== FILE: channel_store.dfy ===
/** The channel-based in-memory store of store/memory/memory.go: one
    buffered channel per live subscription, keyed by a random UUID.
    Channels are identified by the order in which `make` created them;
    closing one records its identity. Each `go func() { theChan <- payload }()`
    is one `Delivery`; running it is modelled only as far as whether it
    panics, not what it puts in the channel's buffer. */
module ChannelStore {

  import opened Outcomes
  import opened Keys
  import opened Fanout

  /** A channel made by `make(chan Payload, capacity)`; `id` is its
      identity, distinct for every `make`. */
  datatype Chan = Chan(id: nat, capacity: nat)

  /** `buffer` is the capacity given to `New`; `channels` the live
      subscriptions; `made` counts the channels created so far and `closed`
      holds the identities of those that have been closed. */
  datatype Store = Store(buffer: int, channels: map<Uuid, Chan>, made: nat, closed: set<nat>)

  /** What the cleanup goroutine of one subscription captures: its key and
      its channel. The channel is also what `Subscribe` returns. */
  datatype Subscription = Subscription(key: Uuid, chan: Chan)

  /** Outcome of `Subscribe`: a new subscription with a nil error; or no
      unused key among the draws yet; or the runtime panic of `make` with a
      negative capacity. */
  datatype Subscribed = Subscribed(store: Store, sub: Subscription, err: Outcome<Error>) | StillDrawing | MakeChanPanic

  /** The store's invariant: every live channel was made by this store, is
      open, has the configured capacity, and is held under one key only. */
  ghost predicate Valid(s: Store)
  {
    && (forall k :: k in s.channels ==> s.channels[k].id < s.made && s.channels[k].id !in s.closed)
    && (forall k :: k in s.channels ==> s.channels[k].capacity as int == s.buffer)
    && (forall k1, k2 :: k1 in s.channels && k2 in s.channels && s.channels[k1].id == s.channels[k2].id ==> k1 == k2)
    && (forall i :: i in s.closed ==> i < s.made)
  }

  /** `New(buffer)`: no subscriptions, the buffer recorded as given. */
  function New(buffer: int): (s: Store)
    ensures Valid(s)
    ensures |s.channels| == 0 && s.buffer == buffer
  {
    Store(buffer, map[], 0, {})
  }

  /** `Subscribe`: `make` the channel (a negative buffer panics), then store
      it under the first drawn key not already in use. The key is new, the
      map grows by exactly that one entry, every earlier subscription is kept
      as it was, the channel is open and has the store's capacity, and the
      returned error is nil. The channel is fresh in a valid store
      (`SubscribePreservesValid`). */
  function Subscribe(s: Store, draws: seq<Uuid>): (r: Subscribed)
    ensures r.MakeChanPanic? <==> s.buffer < 0
    ensures r.StillDrawing? <==> s.buffer >= 0 && forall j :: 0 <= j < |draws| ==> draws[j] in s.channels
    ensures r.Subscribed? ==> r.sub.key in draws && r.sub.key !in s.channels
    ensures r.Subscribed? ==> FirstUnused(s.channels.Keys, draws).Some? && r.sub.key == draws[FirstUnused(s.channels.Keys, draws).value]
    ensures r.Subscribed? ==> r.store.channels == s.channels[r.sub.key := r.sub.chan]
    ensures r.Subscribed? ==> |r.store.channels| == |s.channels| + 1
    ensures r.Subscribed? ==> r.sub.chan.capacity as int == s.buffer && r.sub.chan.id == s.made
    ensures r.Subscribed? ==> r.store.buffer == s.buffer && r.store.closed == s.closed && r.err == Pass
    ensures r.Subscribed? ==> r.store.made == s.made + 1
  {
    if s.buffer < 0 then MakeChanPanic
    else
      var c := Chan(s.made, s.buffer as nat);
      match FirstUnused(s.channels.Keys, draws)
      case None => StillDrawing
      case Some(i) =>
        Subscribed(Store(s.buffer, s.channels[draws[i] := c], s.made + 1, s.closed), Subscription(draws[i], c), Pass)
  }

  /** The cleanup goroutine, once the subscription's context is done: close
      the subscription's channel and delete its key; nothing else changes. */
  function Cancel(s: Store, sub: Subscription): (r: Store)
    ensures r.channels == s.channels - {sub.key}
    ensures sub.key !in r.channels && sub.chan.id in r.closed
    ensures r.closed == s.closed + {sub.chan.id}
    ensures r.buffer == s.buffer && r.made == s.made
  {
    Store(s.buffer, s.channels - {sub.key}, s.made, s.closed + {sub.chan.id})
  }

  /** `Publish`: one send of `p` launched per live subscription and none
      elsewhere; the map is not an output, so it is unchanged, and the
      returned error is always nil. */
  function Publish<P(==)>(s: Store, p: P): (r: Published<Uuid, Chan, P>)
    ensures forall d :: d in r.deliveries ==> d.key in s.channels && d.target == s.channels[d.key] && d.payload == p
    ensures forall k :: k in s.channels ==> r.deliveries[Delivery(k, s.channels[k], p)] == 1
    ensures |r.deliveries| == |s.channels|
    ensures r.err == Pass
  {
    Published(Broadcast(s.channels, p), Pass)
  }

  // ---------------------------------------------------------------------
  // The invariant is kept by every operation

  /** A new subscription's channel is fresh: no other live subscription
      holds it, and it has never been closed. */
  lemma SubscribePreservesValid(s: Store, draws: seq<Uuid>)
    requires Valid(s)
    ensures Subscribe(s, draws).Subscribed? ==> Valid(Subscribe(s, draws).store)
    ensures Subscribe(s, draws).Subscribed? ==> Subscribe(s, draws).sub.chan.id !in s.closed
    ensures Subscribe(s, draws).Subscribed? ==>
      forall k :: k in s.channels ==> s.channels[k].id != Subscribe(s, draws).sub.chan.id
  {
  }

  /** Cleaning up a live subscription closes only its own channel: every
      other subscription stays open. */
  lemma CancelPreservesValid(s: Store, sub: Subscription)
    requires Valid(s)
    requires sub.key in s.channels && s.channels[sub.key] == sub.chan
    ensures Valid(Cancel(s, sub))
    ensures forall k :: k in Cancel(s, sub).channels ==> Cancel(s, sub).channels[k].id !in Cancel(s, sub).closed
  {
  }

  /** In a valid store no send is launched to a channel that is already
      closed when `Publish` runs, and no channel gets two launched sends.
      A launched send may still execute after a later cleanup has closed its
      channel: see `PublishThenCancelPanics`. */
  lemma PublishSafeAndOnce<P>(s: Store, p: P)
    requires Valid(s)
    ensures forall d :: d in Publish(s, p).deliveries ==> d.target.id !in s.closed
    ensures forall d1, d2 :: d1 in Publish(s, p).deliveries && d2 in Publish(s, p).deliveries && d1.target == d2.target ==> d1 == d2
  {
  }

  /** A subscription receives every publish while it is live and none after
      its cleanup. */
  lemma CancelledGetsNothing<P>(s: Store, sub: Subscription, p: P)
    requires Valid(s)
    requires sub.key in s.channels && s.channels[sub.key] == sub.chan
    ensures Publish(s, p).deliveries[Delivery(sub.key, sub.chan, p)] == 1
    ensures forall d :: d in Publish(Cancel(s, sub), p).deliveries ==> d.target != sub.chan
  {
  }

  /** Subscribing and then cleaning up leaves the live subscriptions as they
      were; only the closed channel is left behind. */
  lemma SubscribeThenCancel(s: Store, draws: seq<Uuid>)
    requires Subscribe(s, draws).Subscribed?
    ensures Cancel(Subscribe(s, draws).store, Subscribe(s, draws).sub).channels == s.channels
  {
  }


  // ---------------------------------------------------------------------
  // Launched sends that run after cleanup

  /** Outcome of running a launched send. */
  datatype SendResult<P(==)> = Sent(pending: multiset<Delivery<Uuid, Chan, P>>) | SendOnClosedPanic

  /** Running one launched send `theChan <- payload`: a send on a closed
      channel panics; otherwise the send leaves the pending set. Blocking on
      a full buffer is not modelled. */
  function RunSend<P(==)>(s: Store, pending: multiset<Delivery<Uuid, Chan, P>>, d: Delivery<Uuid, Chan, P>): (r: SendResult<P>)
    requires d in pending
    ensures r == SendOnClosedPanic <==> d.target.id in s.closed
    ensures r.Sent? ==> r.pending[d] == pending[d] - 1 && |r.pending| == |pending| - 1
  {
    if d.target.id in s.closed then SendOnClosedPanic else Sent(pending - multiset{d})
  }

  /** No launched send that has not run yet targets a closed channel. */
  ghost predicate NoPendingOnClosed<P>(s: Store, pending: multiset<Delivery<Uuid, Chan, P>>)
  {
    forall d :: d in pending ==> d.target.id !in s.closed
  }

  /** As written, cleanup closes the channel without waiting for the sends
      `Publish` launched to it: publishing to a live subscription and then
      cleaning it up before the launched send runs makes that send panic. */
  lemma PublishThenCancelPanics<P>(s: Store, sub: Subscription, p: P)
    requires Valid(s)
    requires sub.key in s.channels && s.channels[sub.key] == sub.chan
    ensures Delivery(sub.key, sub.chan, p) in Publish(s, p).deliveries
    ensures RunSend(Cancel(s, sub), Publish(s, p).deliveries, Delivery(sub.key, sub.chan, p)) == SendOnClosedPanic
    ensures !NoPendingOnClosed(Cancel(s, sub), Publish(s, p).deliveries)
  {
  }

  /** Corrected cleanup, first half: under the lock, delete the key so that
      no new send is launched to the channel. */
  function Detach(s: Store, sub: Subscription): (r: Store)
    ensures r.channels == s.channels - {sub.key}
    ensures r.closed == s.closed && r.buffer == s.buffer && r.made == s.made
  {
    s.(channels := s.channels - {sub.key})
  }

  /** Corrected cleanup, second half: close the channel only once no launched
      send to it is pending; `None` means the cleanup is still waiting. */
  function CloseDrained<P(==)>(s: Store, pending: multiset<Delivery<Uuid, Chan, P>>, sub: Subscription): (r: Option<Store>)
    ensures r.Some? <==> forall d :: d in pending ==> d.target.id != sub.chan.id
    ensures r.Some? ==> r.value == s.(closed := s.closed + {sub.chan.id})
  {
    if forall d | d in pending :: d.target.id != sub.chan.id then Some(s.(closed := s.closed + {sub.chan.id})) else None
  }

  /** With the corrected cleanup every launched send runs without panicking:
      sends pending at detach time, plus those of a publish issued after the
      detach, never target a channel that the cleanup has closed. */
  lemma CorrectedCleanupNeverPanics<P>(s: Store, sub: Subscription, pending: multiset<Delivery<Uuid, Chan, P>>, p: P)
    requires Valid(s)
    requires sub.key in s.channels && s.channels[sub.key] == sub.chan
    requires NoPendingOnClosed(s, pending)
    ensures var s1 := Detach(s, sub);
      var pending1 := pending + Publish(s1, p).deliveries;
      && NoPendingOnClosed(s1, pending1)
      && (forall d :: d in Publish(s1, p).deliveries ==> d.target.id != sub.chan.id)
      && (CloseDrained(s1, pending1, sub).Some? ==> NoPendingOnClosed(CloseDrained(s1, pending1, sub).value, pending1))
      && (forall d :: d in pending1 && CloseDrained(s1, pending1, sub).Some? ==> RunSend(CloseDrained(s1, pending1, sub).value, pending1, d).Sent?)
  {
  }

  /** The corrected cleanup does close the channel once its sends have run. */
  lemma CorrectedCleanupCloses<P>(s: Store, sub: Subscription)
    ensures var none: multiset<Delivery<Uuid, Chan, P>> := multiset{};
      CloseDrained(Detach(s, sub), none, sub) == Some(Cancel(s, sub))
  {
  }

}

=== FILE: event.dfy ===
/** The event bus of event.go: a handler registry keyed by string id, bound
    to one Store. Locks and goroutines are not modelled; every operation is a
    pure transition on an immutable `Event` value, and each `go
    handler.Handle(payload)` becomes one recorded `Delivery`. */
module EventBus {

  import opened Outcomes
  import opened Fanout

  /** The `handlers` field. Go's zero value is the nil map (`Nil`), which
      reads as empty; the first registration replaces it by a live map. */
  datatype Registry<H> = Nil | Live(entries: map<string, H>)

  /** The entries a read of the registry observes. */
  function Entries<H>(r: Registry<H>): map<string, H>
  {
    if r.Nil? then map[] else r.entries
  }

  /** An event bus bound to the store `store`, which never changes. */
  datatype Event<S, H> = Event(store: S, handlers: Registry<H>)

  /** One handler invocation launched by a dispatch: the registry entry
      `id ↦ handler` that was fanned out to, and the payload. */
  type Invocation<H, P> = Delivery<string, H, P>

  /** `NewEvent`: binds `store`, starts with the nil registry, and always
      returns a nil error (the subscription runs in its own goroutine). */
  function NewEvent<S, H>(store: S): (r: (Event<S, H>, Outcome<Error>))
    ensures r.0.store == store
    ensures r.0.handlers == Nil && Entries(r.0.handlers) == map[]
    ensures r.1 == Pass
  {
    (Event(store, Nil), Pass)
  }

  /** `RegisterHandler(id, h)`: succeeds exactly when `id` is not registered,
      and then adds exactly `id ↦ h`; otherwise fails with `DuplicateId` and
      leaves the whole event, and so the original handler, untouched. Either
      way the registry is no longer nil, and no other id changes. */
  function RegisterHandler<S, H>(e: Event<S, H>, id: string, h: H): (r: (Event<S, H>, Outcome<Error>))
    ensures r.1 == Pass <==> id !in Entries(e.handlers)
    ensures r.1.Fail? ==> r.1.error == DuplicateId && r.0 == e
    ensures r.1 == Pass ==> Entries(r.0.handlers) == Entries(e.handlers)[id := h]
    ensures r.0.store == e.store && r.0.handlers.Live?
    ensures forall k :: k != id ==> (k in Entries(r.0.handlers) <==> k in Entries(e.handlers))
    ensures forall k :: k != id && k in Entries(e.handlers) ==> Entries(r.0.handlers)[k] == Entries(e.handlers)[k]
  {
    var m := Entries(e.handlers);
    if id in m then (e.(handlers := Live(m)), Fail(DuplicateId))
    else (e.(handlers := Live(m[id := h])), Pass)
  }

  /** `UnregisterHandler(id)`: afterwards `id` is absent and every other entry
      is as before; deleting an absent id (from a nil or a live map) changes
      nothing at all. */
  function UnregisterHandler<S, H>(e: Event<S, H>, id: string): (r: Event<S, H>)
    ensures id !in Entries(r.handlers)
    ensures Entries(r.handlers).Keys == Entries(e.handlers).Keys - {id}
    ensures forall k :: k in Entries(r.handlers) ==> Entries(r.handlers)[k] == Entries(e.handlers)[k]
    ensures id !in Entries(e.handlers) ==> r == e
    ensures r.store == e.store
  {
    match e.handlers
    case Nil => e
    case Live(m) => e.(handlers := Live(m - {id}))
  }

  /** `subscribe`, the callback the store calls with each payload: one
      `Handle(p)` per handler registered at that moment, none for any other
      id, each carrying the payload. */
  function Dispatch<S, H(==), P(==)>(e: Event<S, H>, p: P): (r: multiset<Invocation<H, P>>)
    ensures forall d :: d in r ==> d.key in Entries(e.handlers) && d.target == Entries(e.handlers)[d.key] && d.payload == p
    ensures forall id :: id in Entries(e.handlers) ==> r[Delivery(id, Entries(e.handlers)[id], p)] == 1
    ensures |r| == |Entries(e.handlers)|
  {
    Broadcast(Entries(e.handlers), p)
  }

  /** `Publish`: hands `p` to the bound store's own `Publish` and returns its
      result verbatim. The event itself is returned unchanged, and no handler
      is invoked here: delivery only happens when the store calls back. */
  function Publish<S, H, P>(e: Event<S, H>, p: P, storePublish: (S, P) -> Outcome<Error>): (r: (Event<S, H>, Outcome<Error>))
    ensures r.0 == e
    ensures r.1 == storePublish(e.store, p)
  {
    (e, storePublish(e.store, p))
  }

  // ---------------------------------------------------------------------
  // Laws relating the operations

  /** A new bus dispatches nothing, whatever the payload. */
  lemma NewEventDispatchesNothing<S, H, P>(store: S, p: P)
    ensures Dispatch(NewEvent<S, H>(store).0, p) == multiset{}
  {
  }

  /** Registering a fresh id and then unregistering it gives back the
      registry's original entries. */
  lemma RegisterThenUnregister<S, H>(e: Event<S, H>, id: string, h: H)
    requires id !in Entries(e.handlers)
    ensures Entries(UnregisterHandler(RegisterHandler(e, id, h).0, id).handlers) == Entries(e.handlers)
  {
  }

  /** Unregistering is idempotent. */
  lemma UnregisterIdempotent<S, H>(e: Event<S, H>, id: string)
    ensures UnregisterHandler(UnregisterHandler(e, id), id) == UnregisterHandler(e, id)
  {
  }

  /** After unregistering an id it can be registered again. */
  lemma UnregisterThenRegister<S, H>(e: Event<S, H>, id: string, h: H)
    ensures RegisterHandler(UnregisterHandler(e, id), id, h).1 == Pass
    ensures Entries(RegisterHandler(UnregisterHandler(e, id), id, h).0.handlers)[id] == h
  {
  }

  /** A rejected duplicate registration leaves the original handler reachable:
      the next dispatch still invokes it once, and never the rejected one
      under that id. */
  lemma DuplicateKeepsOriginal<S, H, P>(e: Event<S, H>, id: string, h: H, p: P)
    requires id in Entries(e.handlers)
    ensures RegisterHandler(e, id, h).1 == Fail(DuplicateId)
    ensures Dispatch(RegisterHandler(e, id, h).0, p)[Delivery(id, Entries(e.handlers)[id], p)] == 1
    ensures h != Entries(e.handlers)[id] ==> Delivery(id, h, p) !in Dispatch(RegisterHandler(e, id, h).0, p)
  {
  }

  /** Removal finality: once `id` is unregistered no dispatch reaches it. */
  lemma UnregisteredGetsNothing<S, H, P>(e: Event<S, H>, id: string, p: P)
    ensures forall d :: d in Dispatch(UnregisterHandler(e, id), p) ==> d.key != id
  {
  }

  /** A store whose `Publish` fails makes the bus's `Publish` return that
      same failure, with the event unchanged. */
  lemma PublishPassesStoreFailure<S, H, P>(e: Event<S, H>, p: P, reason: string, storePublish: (S, P) -> Outcome<Error>)
    requires storePublish(e.store, p) == Fail(StoreFailure(reason))
    ensures Publish(e, p, storePublish) == (e, Fail(StoreFailure(reason)))
  {
  }

  /** Publishing, however often, never changes what the next dispatch does. */
  lemma PublishKeepsDispatch<S, H, P>(e: Event<S, H>, p: P, q: P, storePublish: (S, P) -> Outcome<Error>)
    ensures Dispatch(Publish(e, p, storePublish).0, q) == Dispatch(e, q)
  {
  }

  // ---------------------------------------------------------------------
  // Sequences of registry operations

  datatype Op<H> = Register(id: string, handler: H) | Unregister(id: string)

  function Apply<S, H>(e: Event<S, H>, op: Op<H>): Event<S, H>
  {
    match op
    case Register(id, h) => RegisterHandler(e, id, h).0
    case Unregister(id) => UnregisterHandler(e, id)
  }

  /** Runs `ops` in order. */
  function Run<S, H>(e: Event<S, H>, ops: seq<Op<H>>): Event<S, H>
    decreases |ops|
  {
    if |ops| == 0 then e else Run(Apply(e, ops[0]), ops[1..])
  }

  /** What a registry read finds under one id. */
  function Lookup<H>(r: Registry<H>, id: string): Option<H>
  {
    if id in Entries(r) then Some(Entries(r)[id]) else None
  }

  /** Reference semantics for a single id: the first registration wins until
      an unregistration clears it; operations on other ids are ignored. */
  function Track<H>(held: Option<H>, ops: seq<Op<H>>, id: string): Option<H>
    decreases |ops|
  {
    if |ops| == 0 then held
    else
      var next :=
        if ops[0].id != id then held
        else if ops[0].Unregister? then None
        else if held.Some? then held
        else Some(ops[0].handler);
      Track(next, ops[1..], id)
  }

  /** The registry after any operation sequence is the product of independent
      per-id histories: every id holds what `Track` says, so a duplicate never
      displaces the handler registered first, and the store never changes. */
  lemma {:induction false} RunIsPerId<S, H>(e: Event<S, H>, ops: seq<Op<H>>, id: string)
    ensures Lookup(Run(e, ops).handlers, id) == Track(Lookup(e.handlers, id), ops, id)
    ensures Run(e, ops).store == e.store
    decreases |ops|
  {
    if |ops| > 0 {
      var e1 := Apply(e, ops[0]);
      assert Lookup(e1.handlers, id) ==
        (if ops[0].id != id then Lookup(e.handlers, id)
         else if ops[0].Unregister? then None
         else if Lookup(e.handlers, id).Some? then Lookup(e.handlers, id)
         else Some(ops[0].handler));
      RunIsPerId(e1, ops[1..], id);
    }
  }

}

=== FILE: fanout.dfy ===
/** Fan-out over a map: every broadcast in the bus is a loop
    `for key, target := range m { go target(payload) }`. Goroutines are not
    modelled; each launched one is recorded as a `Delivery`. */
module Fanout {

  import opened Outcomes

  /** One `go target(payload)` launched for the entry stored under `key`. */
  datatype Delivery<K, T, P> = Delivery(key: K, target: T, payload: P)

  /** What a store's `Publish` hands back: the launched deliveries and the
      returned `error`. */
  datatype Published<K(==), T(==), P(==)> = Published(deliveries: multiset<Delivery<K, T, P>>, err: Outcome<Error>)

  /** The deliveries of one broadcast of `p` over `m`: exactly one per entry
      of the map, carrying that entry's target and the payload, and nothing else. */
  function Broadcast<K(==), T(==), P(==)>(m: map<K, T>, p: P): (r: multiset<Delivery<K, T, P>>)
    ensures forall d :: d in r ==> d.key in m && d.target == m[d.key] && d.payload == p
    ensures forall k :: k in m ==> r[Delivery(k, m[k], p)] == 1
    ensures |r| == |m|
  {
    BroadcastSetSize(m, p);
    multiset(set k | k in m :: Delivery(k, m[k], p))
  }

  /** Tagging every entry with its own key makes the deliveries pairwise
      distinct, so there are as many as there are entries. */
  lemma {:induction false} BroadcastSetSize<K, T, P>(m: map<K, T>, p: P)
    ensures |set k | k in m :: Delivery(k, m[k], p)| == |m|
    decreases |m|
  {
    if |m| == 0 {
      assert m == map[];
      assert (set k | k in m :: Delivery(k, m[k], p)) == {};
    } else {
      var k0 :| k0 in m;
      var rest := m - {k0};
      assert rest.Keys == m.Keys - {k0};
      BroadcastSetSize(rest, p);
      var whole := set k | k in m :: Delivery(k, m[k], p);
      var part := set k | k in rest :: Delivery(k, rest[k], p);
      forall d | d in whole
        ensures d in part + {Delivery(k0, m[k0], p)}
      {
        if d.key != k0 {
          assert d == Delivery(d.key, rest[d.key], p);
        }
      }
      assert whole == part + {Delivery(k0, m[k0], p)};
    }
  }

  /** The `for range` loop itself: it visits every key once, in an order the
      language leaves unspecified, and launches one delivery per visited key.
      Whatever the visiting order, the launched deliveries are `Broadcast(m, p)`. */
  method BroadcastLoop<K(==), T(==), P(==)>(m: map<K, T>, p: P) returns (launched: multiset<Delivery<K, T, P>>)
    ensures launched == Broadcast(m, p)
  {
    var todo := m.Keys;
    launched := multiset{};
    while todo != {}
      invariant todo <= m.Keys
      invariant forall d :: d in launched ==> d.key in m && d.key !in todo && d.target == m[d.key] && d.payload == p
      invariant forall k :: k in m && k !in todo ==> launched[Delivery(k, m[k], p)] == 1
      decreases todo
    {
      var k :| k in todo;
      launched := launched + multiset{Delivery(k, m[k], p)};
      todo := todo - {k};
    }
    var all := Broadcast(m, p);
    forall d | true
      ensures launched[d] == all[d]
    {
      if d in all {
        assert launched[Delivery(d.key, m[d.key], p)] == 1;
      }
    }
  }

}

=== FILE: keys.dfy ===
/** Subscription keys of the two in-memory stores. A key is a `[16]byte`
    produced by `uuid.NewV4()`; the stores keep drawing until a draw is not
    already a key of their map. Randomness is not modelled: the stream of
    draws is a parameter. */
module Keys {

  import opened Outcomes

  /** Number of distinct `[16]byte` values. */
  const UUID_COUNT: nat := 0x1_0000_0000_0000_0000_0000_0000_0000_0000

  /** A `[16]byte` map key read as a 128-bit number. */
  type Uuid = x: nat | x < UUID_COUNT

  /** The retry loop `for { x = draw; if x in use { continue }; break }`
      over a finite prefix of draws: the index of the first draw not in
      `used`, or `None` when every draw so far was already in use (the loop
      is still drawing). */
  function FirstUnused<K(==)>(used: set<K>, draws: seq<K>): (r: Option<nat>)
    ensures r.Some? ==> r.value < |draws| && draws[r.value] !in used
    ensures r.Some? ==> forall j :: 0 <= j < r.value ==> draws[j] in used
    ensures r.None? <==> forall j :: 0 <= j < |draws| ==> draws[j] in used
  {
    if |draws| == 0 then None
    else if draws[0] !in used then Some(0)
    else match FirstUnused(used, draws[1..])
      case None => None
      case Some(i) => Some(i + 1)
  }

  /** The first `n` natural numbers. */
  ghost function Below(n: nat): (r: set<nat>)
    ensures |r| == n
    ensures forall k: nat :: k in r <==> k < n
  {
    if n == 0 then {} else Below(n - 1) + {n - 1}
  }

  /** A finite set's subsets are no larger than it is. */
  lemma {:induction false} SubsetSize<T>(a: set<T>, b: set<T>)
    requires a <= b
    ensures |a| <= |b|
    decreases |b|
  {
    if b != {} {
      var x :| x in b;
      SubsetSize(a - {x}, b - {x});
    }
  }

  /** While fewer than all 2^128 keys are in use an unused key exists, so a
      draw stream that covers the key space ends the retry loop. */
  lemma FreshUuidExists(used: set<Uuid>)
    requires |used| < UUID_COUNT
    ensures exists k: Uuid :: k !in used
  {
    var all := Below(UUID_COUNT);
    var usedNats: set<nat> := used;
    if all <= usedNats {
      SubsetSize(all, usedNats);
      assert false;
    }
    var k :| k in all && k !in usedNats;
    var u: Uuid := k;
    assert u !in used;
  }

  /** A draw stream that contains some unused key ends the loop, at the first
      unused draw. */
  lemma FirstUnusedFinds<K>(used: set<K>, draws: seq<K>, i: nat)
    requires i < |draws| && draws[i] !in used
    ensures FirstUnused(used, draws).Some?
    ensures FirstUnused(used, draws).value <= i
  {
  }

}

=== FILE: memory_events.dfy ===
/** `New` of memory/memory.go: an event bus over a fresh callback store, with
    the bus's dispatch callback subscribed to it. This is where the pieces
    meet: a publish goes to the store, the store launches the subscribed
    callback, and that callback fans out to the registered handlers. */
module MemoryEvents {

  import opened Outcomes
  import opened Keys
  import opened Fanout
  import EventBus
  import CallbackStore

  /** The only callback the bus hands its store: the method value
      `e.subscribe`. */
  datatype Subscriber = EventSubscribe

  type Bus<H> = EventBus.Event<CallbackStore.Store<Subscriber>, H>

  /** `New`: `newStore`, then `NewEvent` over it, whose goroutine subscribes
      `e.subscribe` under the first drawn key `key` (unused, since the store
      is empty). No handlers, exactly one subscription, and a nil error. */
  function New<H>(key: Uuid): (r: (Bus<H>, Outcome<Error>))
    ensures r.0.handlers == EventBus.Nil
    ensures r.0.store.callbacks == map[key := EventSubscribe]
    ensures r.1 == Pass
  {
    var store := CallbackStore.NewStore<Subscriber>();
    var (e, err) := EventBus.NewEvent<CallbackStore.Store<Subscriber>, H>(store);
    match CallbackStore.Subscribe(e.store, EventSubscribe, [key])
    case Subscribed(s, _, _) => (e.(store := s), err)
    case StillDrawing => assert false; (e, err)
  }

  /** The store's `Publish` as `event.Publish` sees it: only its error. */
  function StorePublish<P(==)>(s: CallbackStore.Store<Subscriber>, p: P): Outcome<Error>
  {
    CallbackStore.Publish(s, p).err
  }

  /** `Publish` on the bus: the event forwards to the store, which launches
      the subscribed callback once per live subscription. No handler is
      invoked yet, the bus is unchanged, and the error is the store's nil. */
  function Publish<H, P(==)>(b: Bus<H>, p: P): (r: (Bus<H>, Published<Uuid, Subscriber, P>))
    ensures r.0 == b
    ensures r.1.deliveries == CallbackStore.Publish(b.store, p).deliveries
    ensures r.1.err == Pass
  {
    var (e, err) := EventBus.Publish(b, p, StorePublish);
    (e, Published(CallbackStore.Publish(b.store, p).deliveries, err))
  }

  /** A launched callback running: `e.subscribe(payload)` over the handlers
      registered when it runs. */
  function Deliver<H(==), P(==)>(b: Bus<H>, d: Delivery<Uuid, Subscriber, P>): (r: multiset<EventBus.Invocation<H, P>>)
    ensures forall i :: i in r ==> i.key in EventBus.Entries(b.handlers) && i.target == EventBus.Entries(b.handlers)[i.key] && i.payload == d.payload
    ensures forall id :: id in EventBus.Entries(b.handlers) ==> r[Delivery(id, EventBus.Entries(b.handlers)[id], d.payload)] == 1
  {
    EventBus.Dispatch(b, d.payload)
  }

  /** Cancelling the context given to `New`: the store's cleanup drops the
      bus's subscription. The registry is left as it is. */
  function Cancel<H>(b: Bus<H>, key: Uuid): (r: Bus<H>)
    ensures r.handlers == b.handlers
    ensures r.store.callbacks.Keys == b.store.callbacks.Keys - {key}
  {
    b.(store := CallbackStore.Cancel(b.store, key))
  }

  // ---------------------------------------------------------------------
  // End-to-end properties

  /** End to end from `New`: after any sequence of registrations and
      unregistrations, a publish still launches exactly the one callback
      `New` subscribed, and running it dispatches to the handlers the
      sequence left registered. */
  lemma {:induction false} RunThenPublishReachesHandlers<H, P>(key: Uuid, ops: seq<EventBus.Op<H>>, p: P)
    ensures Publish(EventBus.Run(New<H>(key).0, ops), p).1.deliveries == multiset{Delivery(key, EventSubscribe, p)}
    ensures Deliver(EventBus.Run(New<H>(key).0, ops), Delivery(key, EventSubscribe, p)) == EventBus.Dispatch(EventBus.Run(New<H>(key).0, ops), p)
  {
    var b := New<H>(key).0;
    EventBus.RunIsPerId(b, ops, "");
    PublishReachesEveryHandler(EventBus.Run(b, ops), key, p);
  }

  /** Fan-out completeness: while the bus holds its single subscription, a
      publish launches exactly one callback, and running it invokes every
      registered handler once with the payload and nothing else. */
  lemma PublishReachesEveryHandler<H, P>(b: Bus<H>, key: Uuid, p: P)
    requires b.store.callbacks == map[key := EventSubscribe]
    ensures Publish(b, p).1.deliveries == multiset{Delivery(key, EventSubscribe, p)}
    ensures Deliver(b, Delivery(key, EventSubscribe, p)) == EventBus.Dispatch(b, p)
  {
  }

  /** Cancellation teardown: a publish issued after the cleanup launches
      nothing. A callback launched before the cleanup can still run and reach
      the handlers: see `LaunchedBeforeCancelStillRuns`. */
  lemma CancelledBusDeliversNothing<H, P>(b: Bus<H>, key: Uuid, p: P)
    requires b.store.callbacks.Keys == {key}
    ensures Publish(Cancel(b, key), p).1.deliveries == multiset{}
  {
  }

  /** The cleanup does not wait for callbacks already launched: a callback
      launched by a publish before the cleanup, run after it, still fans out
      to every handler registered at that point. */
  lemma LaunchedBeforeCancelStillRuns<H, P>(b: Bus<H>, key: Uuid, p: P)
    requires b.store.callbacks == map[key := EventSubscribe]
    ensures Delivery(key, EventSubscribe, p) in Publish(b, p).1.deliveries
    ensures Cancel(b, key).store.callbacks == map[]
    ensures Deliver(Cancel(b, key), Delivery(key, EventSubscribe, p)) == EventBus.Dispatch(b, p)
  {
  }

  /** An example run: with handler "h1" registered, a publish of "x"
      launches the bus's callback and delivering it reaches "h1";
      registering "h1" again fails and keeps the handler; after
      unregistering "h1", delivering "y" reaches no handler. */
  lemma Scenario(key: Uuid)
    ensures
      var b0 := New<string>(key).0;
      var (b1, ok1) := EventBus.RegisterHandler(b0, "h1", "log");
      var (b2, ok2) := EventBus.RegisterHandler(b1, "h1", "other");
      var b3 := EventBus.UnregisterHandler(b2, "h1");
      && ok1 == Pass
      && Publish(b1, "x").1.deliveries == multiset{Delivery(key, EventSubscribe, "x")}
      && Deliver(b1, Delivery(key, EventSubscribe, "x")) == multiset{Delivery("h1", "log", "x")}
      && ok2 == Fail(DuplicateId) && b2 == b1
      && Publish(b3, "y").1.deliveries == multiset{Delivery(key, EventSubscribe, "y")}
      && Deliver(b3, Delivery(key, EventSubscribe, "y")) == multiset{}
  {
  }

}

=== FILE: outcomes.dfy ===
/** The Go-side result shapes the model needs: an optional value, and an
    `error` return that is either nil (`Pass`) or carries an error value. */
module Outcomes {

  datatype Option<+T> = None | Some(value: T)

  datatype Outcome<+E> = Pass | Fail(error: E)

  /** The error values the bus can hand back to a caller.
      `DuplicateId` is `ErrDuplicateID`; `StoreFailure` stands for whatever
      error a Store implementation reports from its own `Publish`. */
  datatype Error = DuplicateId | StoreFailure(reason: string)

}
